=== FILE: README.md ===
# Wedding invitation maker: the invitation store and the create form

This project models, in Dafny, the two parts of WeddingInviteMaker that make
and keep an invitation:

- **The server's store** (`server/routes.ts`). It has two SQLite tables.
  `invitations` has a UNIQUE slug. `guestbook` rows point at an invitation id.
  Four JSON routes work over them:
  - `POST /api/invitations` creates an invitation;
  - `GET /api/invitations/:slug` reads one back;
  - `POST /api/guestbook/:invitationId` adds a guest message;
  - `GET /api/guestbook/:invitationId` lists the messages, newest first.

  The routes are one pure transition, `InvitationStore.Handle(store, request, slugify)`,
  which returns the new store and the response. A table is its rows in rowid order,
  plus the AUTOINCREMENT counter. A response is a JSON body or an error status with
  its message.
- **The create page** (`client/src/pages/create.tsx`). This covers:
  - the `PhotoUpload` list: add a batch, remove one photo, at most seven;
  - the zod form schema;
  - the template radio group;
  - the multipart body the page posts.

Modules:

| module | file | models |
|---|---|---|
| `Base` | base.dfy | `Option`, for `undefined`/`null`/NULL |
| `InvitationStore` | invitation_store.dfy | tables, rows, multer's upload limits and file names, the four routes |
| `StoreProperties` | store_properties.dfy | what the routes guarantee, and the store invariant (unique slugs, increasing ids, every guestbook entry pointing at a stored invitation) |
| `PhotoUpload` | photo_upload.dfy | the photo list, its events and the seven-photo invariant |
| `CreateForm` | create_form.dfy | form schema, template choice, multipart body |
| `Submission` | submission.dfy | how multer reads the page's body, and the end-to-end result of submitting the form |

Inputs the model takes as given, not computed:

- **slugify** is a parameter of type `string -> string`. Being a function value, it
  is deterministic.
- **multer's file name** is `field + "-" + suffix + extension`. The suffix comes
  from `Date.now()` and `Math.random()`. The extension comes from the client's file
  name. Both are fields of an `Upload`. In `Submission`, multer draws one suffix per
  stored file, so `suffixOf(k)` is the suffix of the k-th file of the body.
  `extensionOf` maps a client file to its extension.
- **the guestbook timestamp** (`CURRENT_TIMESTAMP`) is the request's `now`.
- **JSON** `stringify`/`parse` of the photo list is the identity. The column is
  `NullColumn` or `JsonList(urls)`. The read path `photos ? JSON.parse(photos) : []`
  keeps its NULL branch.

Behaviour of the code a reader might not expect:

- The guestbook's `FOREIGN KEY(invitationId) REFERENCES invitations(id)` is enforced,
  because better-sqlite3 opens its connections with foreign keys on. An entry for an id
  no invitation has fails in the INSERT, and the route answers 500
  `Failed to create guestbook entry` with nothing stored.
- The server validates nothing else: no non-empty check on invitation fields, names or
  messages, and no minimum photo count. Only the client's schema asks for non-empty
  fields and at least one photo.
- The `invitations` table created in `server/routes.ts` has no `createdAt` or
  `updatedAt` column. Its `date` is TEXT: the client sends the `datetime-local`
  string.
- The guestbook list is ordered by non-increasing `createdAt`. Entries with equal
  timestamps come back in an order SQL does not fix. The contracts state only what
  the SQL guarantees. `SortByRecency` happens to keep table order among equal
  timestamps.
- A file beyond multer's `maxCount`, or under an undeclared field, never reaches the
  route. Multer raises `Unexpected field`. The error handler (`server/index.ts:61-65`)
  answers 500 with that message, and nothing is stored.

## Model

| member | source | states |
|---|---|---|
| `InvitationStore.StoredFilename` | server/routes.ts:18-21 | multer's disk name for an upload starts with its field name and a dash, and ends with the client file's extension |
| `InvitationStore.FilesFor` | server/routes.ts:77-80 | the files multer groups under a field are exactly the uploads carrying that field name, never more than were uploaded |
| `InvitationStore.FilesForCounts` | server/routes.ts:77-80 | grouping by field keeps each upload of that field as many times as it came, and drops every other upload |
| `InvitationStore.FilesForAppend` | server/routes.ts:77-80 | grouping by field keeps arrival order: the group of a concatenation is the concatenation of the groups |
| `InvitationStore.UploadsAccepted` | server/routes.ts:71-74 | a request multer lets through carries at most eight files, seven photos and one music file |
| `InvitationStore.UploadUrls` | server/routes.ts:93 | one public path per uploaded photo, in upload order, each `/uploads/` followed by the stored file name |
| `InvitationStore.NewRow` | server/routes.ts:82-96 | the inserted row has the next AUTOINCREMENT id, the slug `slugify(brideNames + "-" + groomNames)` and the submitted fields; its photos column is a JSON list with one path per photo upload, never NULL; `musicUrl` is null exactly when no music file was uploaded |
| `InvitationStore.ParsePhotos` | server/routes.ts:100 | reading the photos column gives back the stored list; NULL and an empty list both read as no photos |
| `InvitationStore.Hydrate` | server/routes.ts:98-102 | the invitation in a response carries every column of its row as stored, with the photo list parsed, and a NULL photos column reads as the empty list |
| `InvitationStore.Create` | server/routes.ts:71-106 | a create answers with an invitation only when multer's limits hold and the slug is not taken; over the limits it answers 500 `Unexpected field` with the store unchanged; within the limits a taken slug gives 500 `Failed to create invitation` and an unchanged store; the guestbook is never touched |
| `InvitationStore.FindBySlug` | server/routes.ts:113 | the slug lookup returns a stored row with that slug, and nothing exactly when no row has it |
| `InvitationStore.FindById` | server/routes.ts:98 | the re-read by `lastInsertRowid` returns a stored row with that id, and nothing only when no row has it |
| `InvitationStore.Get` | server/routes.ts:110-127 | reading by slug never changes the store; it answers 404 `Invitation not found` exactly when no row has the slug, and otherwise status 200 with an invitation carrying that slug |
| `InvitationStore.Add` | server/routes.ts:130-144 | adding a guestbook entry never touches the invitations table and keeps the earlier entries; it grows the guestbook by one exactly when an invitation has that id, and otherwise answers 500 `Failed to create guestbook entry` with the store unchanged |
| `InvitationStore.EntriesFor` | server/routes.ts:150 | the `WHERE invitationId = ?` filter keeps exactly the entries with that id |
| `InvitationStore.EntriesForCounts` | server/routes.ts:150 | the filter keeps each matching entry as many times as it is stored, and drops every other entry |
| `InvitationStore.SortByRecency` | server/routes.ts:150 | `ORDER BY createdAt DESC` yields a permutation of its input in non-increasing `createdAt` order |
| `InvitationStore.List` | server/routes.ts:147-157 | listing never changes the store and never fails; it returns exactly that invitation's entries, newest first, and an empty list exactly when there are none |
| `InvitationStore.Handle` | server/routes.ts:71-157 | each request goes to its route; the two reads change nothing, a create writes only the invitations table, an add writes only the guestbook; only the slug lookup answers 404 |
| `StoreProperties.PhotoBatchLimit` | server/routes.ts:71-74 | a request of photo files reaches the handler with up to seven photos and is refused from eight on |
| `StoreProperties.CreateAddsOneRow` | server/routes.ts:85-102 | a successful create appends exactly one row whose id is above every existing id, with the slug `slugify(brideNames + "-" + groomNames)` and the submitted fields; earlier rows and the guestbook are unchanged; the response is that row |
| `StoreProperties.FirstInvitation` | server/routes.ts:85-102 | on an empty store, a create without a music file returns id 1 and a null `musicUrl` |
| `StoreProperties.PhotoUrl` | server/routes.ts:18-22 | a stored photo's path is `/uploads/photos-<suffix><ext>`, and the path leads back to the stored file name |
| `StoreProperties.CreatedPhotosFollowUploads` | server/routes.ts:80-100 | the returned photo list has one entry per uploaded photo, in upload order, at most seven, each `/uploads/photos-<suffix><ext>`, each naming its stored file |
| `StoreProperties.CreatedMusicUrl` | server/routes.ts:79-94 | `musicUrl` is null exactly when no music file was uploaded, and otherwise `/uploads/musicFile-<suffix><ext>`, `/uploads/` followed by that file's stored name |
| `StoreProperties.SameNamesCollide` | server/routes.ts:82-106 | once one couple's invitation is stored, a create with the same bride and groom names fails with 500 and leaves the store as it was |
| `StoreProperties.GetReturnsStoredRow` | server/routes.ts:110-122 | in a valid store, looking up any stored row's slug returns that row, with its photos parsed |
| `StoreProperties.CreateThenGet` | server/routes.ts:98-122 | reading a new invitation back by its slug gives exactly the create's response, including the photo paths and their order |
| `StoreProperties.AddAppendsEntry` | server/routes.ts:130-139 | adding an entry for a stored invitation appends one row with the given invitation id, name, message and time and a fresh id; the invitations table is unchanged and the response is the new row |
| `StoreProperties.DanglingIdRefused` | server/routes.ts:51-55 | in a served store, an entry for an id no invitation has is refused with 500 and changes nothing, and that id's guestbook list is empty |
| `StoreProperties.AddLeavesOtherListsAlone` | server/routes.ts:135-150 | a new entry does not change the list of any other invitation |
| `StoreProperties.NewestEntryListedFirst` | server/routes.ts:135-150 | an entry for a stored invitation, written later than every stored entry, heads that invitation's list |
| `StoreProperties.CreatePreservesValid` | server/routes.ts:36-46 | a create keeps slugs unique and invitation ids increasing and within the AUTOINCREMENT counter |
| `StoreProperties.AddPreservesValid` | server/routes.ts:51-55 | an add keeps entry ids increasing within their counter, and every guestbook entry pointing at a stored invitation |
| `StoreProperties.HandlePreservesValid` | server/routes.ts:36-55 | every route keeps both tables' integrity: unique slugs, ids that increase and never pass their counter, and every guestbook entry pointing at a stored invitation |
| `StoreProperties.RunPreservesValid` | server/routes.ts:36-55 | any sequence of requests keeps the store invariant |
| `StoreProperties.ServedStoreHasUniqueSlugs` | server/routes.ts:36-122 | after any requests to a fresh server, no two invitations share a slug, every guestbook entry belongs to a stored invitation, and each invitation is what the slug query returns |
| `PhotoUpload.HandlePhotoChange` | client/src/pages/create.tsx:242-258 | a batch that would take the list past seven raises the `Too many photos` toast and leaves the list unchanged; any other batch is appended after the old photos, whose order is kept, and the length becomes old plus batch |
| `PhotoUpload.FilterOutIndex` | client/src/pages/create.tsx:261 | filtering out one position removes exactly the element there, and nothing when the position is outside the list |
| `PhotoUpload.RemovePhoto` | client/src/pages/create.tsx:260-264 | removing index i deletes exactly element i and keeps the rest in order; an out-of-range index leaves the list unchanged |
| `CreateForm.RemoveClickAsWritten` | client/src/pages/create.tsx:276-283 | a remove click leaves the form with that photo removed, and submits it exactly when the form then still passes the schema |
| `CreateForm.RemoveSubmitsForm` | client/src/pages/create.tsx:89 | removing one of several photos from a complete form posts it at once, with that photo gone |
| `CreateForm.RemoveSubmitsExample` | client/src/pages/create.tsx:276-283 | a filled-in form with two photos is posted with the second photo alone by a click on the first photo's remove button |
| `CreateForm.RemoveClickCorrected` | client/src/pages/create.tsx:260-264 | with `type="button"`, a remove click changes only the photo list, exactly as the list's `Remove` event does, and submits nothing |
| `CreateForm.RemoveClickCorrectedOnlyEdits` | client/src/pages/create.tsx:260-264 | a corrected remove click on a picker-built list submits nothing, is the list's next `Remove` event, and keeps at most seven photos |
| `PhotoUpload.ReplayKeepsLimit` | client/src/pages/create.tsx:242-264 | no sequence of picks and removals takes a list of at most seven photos past seven |
| `PhotoUpload.SevenPhotoInvariant` | client/src/pages/create.tsx:238-264 | starting from the empty list, the photo list never holds more than seven photos |
| `PhotoUpload.UploadControlMeansRoom` | client/src/pages/create.tsx:287 | the upload control is shown exactly when one more photo would be accepted; when it is hidden the list holds seven photos |
| `PhotoUpload.RemoveThenPickAgain` | client/src/pages/create.tsx:245-263 | after a photo is removed, a batch holding just that photo is accepted and appends it last |
| `CreateForm.Validate` | client/src/pages/create.tsx:16-24 | the schema accepts exactly the forms with non-empty bride names, groom names, date, venue and template id and at least one photo; the music file is optional; the accepted values are the form's own |
| `CreateForm.ValidateRoundTrip` | client/src/pages/create.tsx:16-36 | every submission meeting the schema comes back from validating its own form state; the default form does not pass |
| `CreateForm.ChooseTemplate` | client/src/pages/create.tsx:185-193 | choosing a radio item sets the template id to that item's template and changes nothing else |
| `CreateForm.TemplateAlwaysKnown` | client/src/pages/create.tsx:185-193 | from a known template such as the default `template1`, any clicks on the radio items leave the template one of template1, template2, template3 |
| `CreateForm.PreviewIndexMatchesPosition` | client/src/pages/create.tsx:204-209 | each template's preview index, its last digit minus one, is its own position among the three |
| `CreateForm.PhotoParts` | client/src/pages/create.tsx:50 | one `photos` part per photo, in list order |
| `CreateForm.BuildFormData` | client/src/pages/create.tsx:42-53 | the body starts with the five text fields in order; then one `photos` part per photo in list order; then a final `musicFile` part when a music file is set, and no `musicFile` part otherwise; its length is 5 + photos + (0 or 1) |
| `Submission.TextValue` | server/routes.ts:76 | a body field found is a text part of the request with that name, and a field is missing exactly when no text part has that name |
| `Submission.TextValueIsFirst` | server/routes.ts:76 | a field found is the first text part with that name: none comes before it |
| `Submission.Uploads` | server/routes.ts:18-21 | multer stores one upload per file part, in arrival order, under the part's field name; the k-th file stored takes the k-th suffix drawn and its own file's extension |
| `Submission.Receive` | server/routes.ts:76-77 | the server gets a create request exactly when all five text fields are in the body; each field carries a value the body sent under that name, and the files are the body's uploads |
| `Submission.PhotoUploads` | server/routes.ts:80 | each photo file becomes an upload under the `photos` field, in list order, the i-th one taking the i-th suffix after those already drawn |
| `Submission.UploadsOfSubmission` | client/src/pages/create.tsx:49-53 | the files multer receives from the page are its photos in list order, then the music file if one was set; photo i takes suffix i and the music file the next one |
| `Submission.BodyOfSubmission` | client/src/pages/create.tsx:42-47 | the server reads each of the five text fields back exactly as the form held it |
| `Submission.ReceivedRequest` | client/src/pages/create.tsx:42-53 | the request the server builds from the page's body is a create carrying the form's five fields and, as files, its photos followed by its music file |
| `Submission.ReceiveSubmission` | client/src/pages/create.tsx:42-53 | the server receives the form's fields unchanged, its photos under `photos` in list order, the music file alone under `musicFile`, and no other file field |
| `Submission.SubmissionPassesUploadLimits` | server/routes.ts:71-74 | a photo list the picker produced never exceeds multer's limits |
| `Submission.SubmitCreatesInvitation` | client/src/pages/create.tsx:40-64 | a valid form whose slug is free becomes an invitation with the form's fields. It has between one and seven photo paths, in picking order, photo i at `/uploads/photos-<suffix i><ext>`, so a photo picked twice is stored twice under two names. It has a music path exactly when a music file was chosen, `/uploads/musicFile-<suffix>` with the suffix after the photos' |

## Findings

| source | as written | input that shows it | evidently intended | confidence | as-written member | corrected member |
|---|---|---|---|---|---|---|
| client/src/pages/create.tsx:276-283 | the remove `Button` has no `type` and sits inside the `<form>` (line 89), so it is a submit button: a click removes the photo and then submits the form | a form with names, date, venue, template and photos `[a.jpg, b.jpg]`; a click on the remove button of `a.jpg` posts the invitation with `b.jpg` alone | `type="button"`: a click only removes the photo | medium, not executed | `CreateForm.RemoveClickAsWritten` (with `CreateForm.RemoveSubmitsExample`, `CreateForm.RemoveSubmitsForm`) | `CreateForm.RemoveClickCorrected` (with `CreateForm.RemoveClickCorrectedOnlyEdits`); the photo list's `Remove` event is this behaviour |

## Left out

- Disk and database I/O: multer's disk writes, creating the upload directory (`server/routes.ts:61-68`) and the SQLite engine. A table is a sequence of rows, and a failed write other than a slug collision is not modelled.
- slugify's transliteration rules. slugify is an opaque parameter, so the claim that a slug holds only `[a-z0-9-]` is not stated.
- The clock and random number in multer's file names, and `path.extname`. They are given inputs.
- JSON serialisation of the photo list, which is taken as the identity on a list of strings.
- Enforcing the 10 MiB `MAX_FILE_SIZE`, which belongs to multer's transport.
- `InvitationStore.Create`: busboy's default 1 MiB `fieldSize` limit on a text field is not modelled. A longer field aborts the upload, the error handler of `server/index.ts` answers 500 `Field value too long` and nothing is stored, while the model's `Create` stores the row.
- `InvitationStore.Add`: the 100 kB default body limit of `express.json()` (`server/index.ts:8`) is not modelled. A longer guestbook body is answered 413 `request entity too large`, while the model's `Add` appends the entry.
- Requests with a missing text field (`undefined` in `req.body`). `Submission.Receive` returns nothing for such a body.
- `Submission.Receive`: a text field sent more than once keeps its first value. Multer instead collects the values into an array, which the INSERT cannot bind, so the program answers 500 `Failed to create invitation`. The form never sends a text field twice.
- The type conversions SQLite applies to the `:invitationId` route parameter. It is modelled as an integer.
- Request logging, static serving and start-up in `server/index.ts`, except the status its error handler gives a multer error.
- `InvitationStore.Get`: Express never routes an empty `:slug` segment to `GET /api/invitations/:slug`. slugify in strict mode yields `""` for names it strips entirely. Such an invitation is stored and takes part in slug collisions, but no request can read it back. The model's `Get` accepts `""`, and `StoreProperties.ServedStoreHasUniqueSlugs` states what the slug query returns, not that a request can reach it.
- React state plumbing: the `preview` object URLs, toasts beyond their text, and React Query and navigation after a create.
- The presentation components: templates, home page, audio player, countdown timer and guestbook widget.
- `InvitationStore.List`: the order of entries with equal `createdAt` is not stated, because SQL does not fix it.

=== FILE: base.dfy ===
/** Small shared vocabulary: an optional value, standing for JavaScript's
    `undefined`/`null` and SQL's NULL wherever the source has one. */
module Base {

  datatype Option<+T> = None | Some(value: T) {

    /** The value, or `default` when there is none. */
    function GetOr(default: T): T {
      match this
      case Some(v) => v
      case None => default
    }

    /** The value as a sequence of zero or one elements. */
    function ToSeq(): (r: seq<T>)
      ensures |r| <= 1
      ensures r == [] <==> None?
      ensures Some? ==> r == [value]
    {
      match this
      case Some(v) => [v]
      case None => []
    }
  }
}

=== FILE: create_form.dfy ===
/** The create page's form (client/src/pages/create.tsx): the zod schema the
    values must pass before submission, the template radio group, and the
    multipart body `createMutation` posts to `/api/invitations`. */
module CreateForm {
  import opened Base
  import opened PhotoUpload

  const Templates: seq<string> := ["template1", "template2", "template3"]
  const DefaultTemplate: string := "template1"

  /** The form state; a text input the user has not touched is `undefined`. */
  datatype FormValues = FormValues(
    brideNames: Option<string>, groomNames: Option<string>, date: Option<string>,
    venue: Option<string>, photos: seq<File>, musicFile: Option<File>, templateId: Option<string>)

  /** `defaultValues: { photos: [], templateId: "template1" }` */
  const DefaultValues: FormValues := FormValues(None, None, None, None, [], None, Some(DefaultTemplate))

  /** Values that passed the schema, as `handleSubmit` hands them on. */
  datatype ValidForm = ValidForm(
    brideNames: string, groomNames: string, date: string, venue: string,
    photos: seq<File>, musicFile: Option<File>, templateId: string)

  /** `z.string().min(1)` */
  predicate Filled(field: Option<string>)
  {
    field.Some? && |field.value| >= 1
  }

  /** The form state a submission came from. */
  function ValuesOf(s: ValidForm): FormValues
  {
    FormValues(Some(s.brideNames), Some(s.groomNames), Some(s.date), Some(s.venue),
               s.photos, s.musicFile, Some(s.templateId))
  }

  /** `formSchema`: five non-empty strings, at least one photo, an optional
      music file. */
  function Validate(v: FormValues): (r: Option<ValidForm>)
    ensures r.Some? <==>
      && Filled(v.brideNames) && Filled(v.groomNames) && Filled(v.date) && Filled(v.venue)
      && Filled(v.templateId) && |v.photos| >= 1
    ensures r.Some? ==> ValuesOf(r.value) == v
  {
    if Filled(v.brideNames) && Filled(v.groomNames) && Filled(v.date) && Filled(v.venue)
       && Filled(v.templateId) && |v.photos| >= 1
    then Some(ValidForm(v.brideNames.value, v.groomNames.value, v.date.value, v.venue.value,
                        v.photos, v.musicFile, v.templateId.value))
    else None
  }

  /** Every submission with non-empty fields and a photo is what validating
      its own form state yields; the untouched form does not validate. */
  lemma ValidateRoundTrip(s: ValidForm)
    requires |s.brideNames| >= 1 && |s.groomNames| >= 1 && |s.date| >= 1 && |s.venue| >= 1
    requires |s.templateId| >= 1 && |s.photos| >= 1
    ensures Validate(ValuesOf(s)) == Some(s)
    ensures Validate(DefaultValues) == None
  {
  }

  // ---------------------------------------------------------------------
  // Template radio group

  /** `onValueChange(value)` of the radio group, whose items are `Templates`. */
  function ChooseTemplate(v: FormValues, choice: nat): (r: FormValues)
    requires choice < |Templates|
    ensures r.templateId == Some(Templates[choice])
    ensures r.(templateId := v.templateId) == v
  {
    v.(templateId := Some(Templates[choice]))
  }

  /** The form state after the user clicks the given radio items in turn. */
  function ChooseAll(v: FormValues, choices: seq<nat>): FormValues
    requires forall i :: 0 <= i < |choices| ==> choices[i] < |Templates|
    decreases |choices|
  {
    if choices == [] then v else ChooseAll(ChooseTemplate(v, choices[0]), choices[1..])
  }

  /** Starting from the default, the template is always one of the three
      known ones, so a filled-in form always names a known template. */
  lemma {:induction false} TemplateAlwaysKnown(v: FormValues, choices: seq<nat>)
    requires v.templateId.Some? && v.templateId.value in Templates
    requires forall i :: 0 <= i < |choices| ==> choices[i] < |Templates|
    ensures ChooseAll(v, choices).templateId.Some?
    ensures ChooseAll(v, choices).templateId.value in Templates
    decreases |choices|
  {
    if choices != [] {
      TemplateAlwaysKnown(ChooseTemplate(v, choices[0]), choices[1..]);
    }
  }

  /** `Number(template.slice(-1)) - 1`: which preview image a radio item
      shows. Only the radio items' own values are ever passed, each ending in
      a digit, so the digit's value is its distance from '1' plus one. */
  function PreviewIndex(template: string): int
    requires template in Templates
  {
    (template[|template| - 1] as int) - ('1' as int)
  }

  /** Each of the three items shows its own preview image. */
  lemma PreviewIndexMatchesPosition(k: nat)
    requires k < |Templates|
    ensures PreviewIndex(Templates[k]) == k
  {
  }

  // ---------------------------------------------------------------------
  // The remove button of a photo

  /** What a click on a photo's remove button leaves behind: the form
      values, and the submission the click starts, if any. */
  datatype RemoveClick = RemoveClick(values: FormValues, submitted: Option<ValidForm>)

  /** The button as the page renders it: a `Button` with no `type`, inside
      the `<form>`, is a submit button. The click runs `removePhoto`, then the
      browser submits the form, and `handleSubmit` posts it whenever the
      shorter list still passes the schema. */
  function RemoveClickAsWritten(v: FormValues, index: int): (r: RemoveClick)
    ensures r.values == v.(photos := RemovePhoto(v.photos, index))
    ensures r.submitted.Some? <==>
      && Filled(v.brideNames) && Filled(v.groomNames) && Filled(v.date) && Filled(v.venue)
      && Filled(v.templateId) && |RemovePhoto(v.photos, index)| >= 1
    ensures r.submitted.Some? ==> ValuesOf(r.submitted.value) == r.values
  {
    var after := v.(photos := RemovePhoto(v.photos, index));
    RemoveClick(after, Validate(after))
  }

  /** The button as intended, with `type="button"`: the click edits the
      photo list and submits nothing. */
  function RemoveClickCorrected(v: FormValues, index: int): (r: RemoveClick)
    ensures r.values.photos == Step(v.photos, Remove(index))
    ensures r.values.(photos := v.photos) == v
    ensures r.submitted.None?
  {
    RemoveClick(v.(photos := RemovePhoto(v.photos, index)), None)
  }

  /** As written, removing one of several photos from a complete form posts
      the form at once, with one photo fewer. */
  lemma RemoveSubmitsForm(v: FormValues, index: int)
    requires Validate(v).Some?
    requires 0 <= index < |v.photos| && |v.photos| >= 2
    ensures RemoveClickAsWritten(v, index).submitted.Some?
    ensures RemoveClickAsWritten(v, index).submitted.value.photos == RemovePhoto(v.photos, index)
    ensures |RemoveClickAsWritten(v, index).submitted.value.photos| == |v.photos| - 1
  {
  }

  /** One input that shows it: a filled-in form with two photos is posted by
      a click that only meant to drop the first photo. */
  lemma RemoveSubmitsExample()
    ensures var v := FormValues(Some("Ana"), Some("Ben"), Some("2025-06-01T15:00"), Some("Garden"),
                                [File("a.jpg"), File("b.jpg")], None, Some(DefaultTemplate));
      RemoveClickAsWritten(v, 0).submitted
        == Some(ValidForm("Ana", "Ben", "2025-06-01T15:00", "Garden", [File("b.jpg")], None, DefaultTemplate))
  {
    var v := FormValues(Some("Ana"), Some("Ben"), Some("2025-06-01T15:00"), Some("Garden"),
                        [File("a.jpg"), File("b.jpg")], None, Some(DefaultTemplate));
    assert RemovePhoto(v.photos, 0) == [File("b.jpg")];
  }

  /** The corrected click never submits and agrees with the photo list's
      own `Remove` event, whichever form it is made on. */
  lemma RemoveClickCorrectedOnlyEdits(v: FormValues, evs: seq<PhotoEvent>, index: int)
    requires v.photos == Replay([], evs)
    ensures RemoveClickCorrected(v, index).submitted.None?
    ensures RemoveClickCorrected(v, index).values.photos == Replay([], evs + [Remove(index)])
    ensures |RemoveClickCorrected(v, index).values.photos| <= MaxPhotos
  {
    ReplayAppend([], evs, Remove(index));
    SevenPhotoInvariant(evs + [Remove(index)]);
  }

  // ---------------------------------------------------------------------
  // Multipart body

  datatype Part = TextPart(name: string, value: string) | FilePart(name: string, file: File)

  /** `values.photos.forEach(photo => formData.append("photos", photo))` */
  function PhotoParts(photos: seq<File>): (parts: seq<Part>)
    ensures |parts| == |photos|
    ensures forall i :: 0 <= i < |photos| ==> parts[i] == FilePart("photos", photos[i])
  {
    if photos == [] then [] else [FilePart("photos", photos[0])] + PhotoParts(photos[1..])
  }

  /** The FormData `createMutation` posts. */
  function BuildFormData(s: ValidForm): (parts: seq<Part>)
    ensures |parts| == 5 + |s.photos| + |s.musicFile.ToSeq()|
    ensures parts[..5] == [TextPart("brideNames", s.brideNames), TextPart("groomNames", s.groomNames),
                           TextPart("date", s.date), TextPart("venue", s.venue),
                           TextPart("templateId", s.templateId)]
    ensures forall i :: 0 <= i < |s.photos| ==> parts[5 + i] == FilePart("photos", s.photos[i])
    ensures s.musicFile.Some? ==> parts[|parts| - 1] == FilePart("musicFile", s.musicFile.value)
    ensures s.musicFile.None? ==> forall p :: p in parts ==> p.name != "musicFile"
  {
    [TextPart("brideNames", s.brideNames), TextPart("groomNames", s.groomNames),
     TextPart("date", s.date), TextPart("venue", s.venue), TextPart("templateId", s.templateId)]
    + PhotoParts(s.photos)
    + (match s.musicFile case Some(m) => [FilePart("musicFile", m)] case None => [])
  }
}

=== FILE: invitation_store.dfy ===
/** The server side of the invitation flow (server/routes.ts): two SQLite
    tables, `invitations` with a UNIQUE slug and `guestbook`, and the four
    JSON routes over them, written as one pure transition function
    `Handle(store, request, slugify) -> (store', response)`.

    The SQL engine, multer's disk storage and JSON (de)serialisation are
    abstracted: a table is the sequence of its rows in rowid order, an
    uploaded file is the name multer gave it, and a serialised photo list is
    the list itself. */
module InvitationStore {
  import opened Base

  // ---------------------------------------------------------------------
  // Constants of the routes

  const UploadPrefix: string := "/uploads/"
  const PhotosField: string := "photos"
  const MusicField: string := "musicFile"
  /** `maxCount` of the two multer file fields. */
  const MaxPhotos: nat := 7
  const MaxMusicFiles: nat := 1

  const OkStatus: nat := 200
  const NotFoundStatus: nat := 404
  const ServerErrorStatus: nat := 500

  /** multer's message for a file beyond `maxCount` or under an undeclared field. */
  const UnexpectedFieldMessage: string := "Unexpected field"
  const CreateFailedMessage: string := "Failed to create invitation"
  const NotFoundMessage: string := "Invitation not found"
  const EntryFailedMessage: string := "Failed to create guestbook entry"

  /** The slugify library, called with `{ lower: true, strict: true }`. Its
      transliteration rules are not modelled; being a function value it is
      deterministic by construction. */
  type Slugifier = string -> string

  // ---------------------------------------------------------------------
  // Uploads

  /** One file multer accepted: the form field it came under, the unique
      suffix built from the clock and a random number, and the extension of
      the client's original file name. */
  datatype Upload = Upload(field: string, uniqueSuffix: string, extension: string)

  /** The disk name multer's filename callback gives an upload: it starts
      with the field name and a dash and keeps the client's extension. */
  function StoredFilename(u: Upload): (name: string)
    ensures |name| == |u.field| + 1 + |u.uniqueSuffix| + |u.extension|
    ensures name[..|u.field| + 1] == u.field + "-"
    ensures name[|name| - |u.extension|..] == u.extension
  {
    u.field + "-" + u.uniqueSuffix + u.extension
  }

  /** The public path under which the static server serves a stored file. */
  function UploadUrl(filename: string): string
  {
    UploadPrefix + filename
  }

  /** The inverse of `UploadUrl`: the stored file a public path names. */
  function FilenameOf(url: string): Option<string>
  {
    if |UploadPrefix| <= |url| && url[..|UploadPrefix|] == UploadPrefix
    then Some(url[|UploadPrefix|..])
    else None
  }

  /** `photos.map(photo => "/uploads/" + photo.filename)`. */
  function UploadUrls(uploads: seq<Upload>): (urls: seq<string>)
    ensures |urls| == |uploads|
    ensures forall i :: 0 <= i < |uploads| ==> urls[i] == UploadUrl(StoredFilename(uploads[i]))
  {
    if uploads == [] then []
    else [UploadUrl(StoredFilename(uploads[0]))] + UploadUrls(uploads[1..])
  }

  /** The files multer groups under one field name (`req.files[field]`), in
      arrival order. */
  function FilesFor(files: seq<Upload>, field: string): (r: seq<Upload>)
    ensures |r| <= |files|
    ensures forall u :: u in r <==> u in files && u.field == field
  {
    if files == [] then []
    else if files[0].field == field then [files[0]] + FilesFor(files[1..], field)
    else FilesFor(files[1..], field)
  }

  /** Grouping by field keeps every upload of that field as often as it
      came and drops the others. */
  lemma {:induction false} FilesForCounts(files: seq<Upload>, field: string)
    ensures forall u :: multiset(FilesFor(files, field))[u]
                     == if u.field == field then multiset(files)[u] else 0
  {
    if files != [] {
      assert files == [files[0]] + files[1..];
      FilesForCounts(files[1..], field);
    }
  }

  /** Grouping by field keeps arrival order: it commutes with appending. */
  lemma {:induction false} FilesForAppend(a: seq<Upload>, b: seq<Upload>, field: string)
    ensures FilesFor(a + b, field) == FilesFor(a, field) + FilesFor(b, field)
  {
    if a != [] {
      assert (a + b)[0] == a[0];
      assert (a + b)[1..] == a[1..] + b;
      FilesForAppend(a[1..], b, field);
    } else {
      assert a + b == b;
    }
  }

  /** When every upload is under one of two fields, the two groups share
      the uploads out between them. */
  lemma {:induction false} FilesForSplit(files: seq<Upload>, one: string, other: string)
    requires one != other
    ensures (forall u :: u in files ==> u.field == one || u.field == other)
            ==> |files| == |FilesFor(files, one)| + |FilesFor(files, other)|
  {
    if files != [] {
      FilesForSplit(files[1..], one, other);
    }
  }

  /** Whether `upload.fields([{musicFile, maxCount 1}, {photos, maxCount 7}])`
      lets the request through to the route handler. */
  predicate UploadsAccepted(files: seq<Upload>)
    ensures UploadsAccepted(files) ==> |files| <= MaxPhotos + MaxMusicFiles
  {
    FilesForSplit(files, PhotosField, MusicField);
    && (forall u :: u in files ==> u.field == PhotosField || u.field == MusicField)
    && |FilesFor(files, PhotosField)| <= MaxPhotos
    && |FilesFor(files, MusicField)| <= MaxMusicFiles
  }

  // ---------------------------------------------------------------------
  // Tables

  /** The text fields of the create request (`req.body`). */
  datatype InvitationFields = InvitationFields(
    brideNames: string, groomNames: string, date: string, venue: string, templateId: string)

  /** The string handed to slugify. */
  function SlugSource(f: InvitationFields): string
  {
    f.brideNames + "-" + f.groomNames
  }

  function SlugOf(f: InvitationFields, slugify: Slugifier): string
  {
    slugify(SlugSource(f))
  }

  /** The `photos` TEXT column: NULL, or a JSON array of paths. */
  datatype PhotosColumn = NullColumn | JsonList(urls: seq<string>)

  datatype InvitationRow = InvitationRow(
    id: nat, slug: string, brideNames: string, groomNames: string, date: string,
    venue: string, photos: PhotosColumn, musicUrl: Option<string>, templateId: string)

  /** An invitation as the JSON responses show it: the row with `photos` parsed. */
  datatype Invitation = Invitation(
    id: nat, slug: string, brideNames: string, groomNames: string, date: string,
    venue: string, photos: seq<string>, musicUrl: Option<string>, templateId: string)

  /** `invitation.photos ? JSON.parse(invitation.photos) : []` */
  function ParsePhotos(c: PhotosColumn): (urls: seq<string>)
    ensures c.JsonList? ==> urls == c.urls
    ensures urls == [] <==> c.NullColumn? || c.urls == []
  {
    match c
    case NullColumn => []
    case JsonList(urls) => urls
  }

  /** The JSON the routes send for a row: every column as stored, with the
      photo list parsed. */
  function Hydrate(row: InvitationRow): (inv: Invitation)
    ensures inv.id == row.id && inv.slug == row.slug && inv.musicUrl == row.musicUrl
    ensures inv.brideNames == row.brideNames && inv.groomNames == row.groomNames
    ensures inv.date == row.date && inv.venue == row.venue && inv.templateId == row.templateId
    ensures row.photos.JsonList? ==> inv.photos == row.photos.urls
    ensures row.photos.NullColumn? ==> inv.photos == []
  {
    Invitation(row.id, row.slug, row.brideNames, row.groomNames, row.date, row.venue,
               ParsePhotos(row.photos), row.musicUrl, row.templateId)
  }

  /** A guestbook row; `createdAt` is the CURRENT_TIMESTAMP default. */
  datatype EntryRow = EntryRow(id: nat, invitationId: int, name: string, message: string, createdAt: int)

  /** Both tables in rowid order, with the AUTOINCREMENT counter of each
      (the largest id ever issued). */
  datatype Store = Store(
    invitations: seq<InvitationRow>, guestbook: seq<EntryRow>, invitationSeq: nat, entrySeq: nat)

  const EmptyStore: Store := Store([], [], 0, 0)

  datatype Response =
    | InvitationJson(invitation: Invitation)
    | EntryJson(entry: EntryRow)
    | EntriesJson(entries: seq<EntryRow>)
      /** `res.json(undefined)`: a 200 with no body. */
    | EmptyJson
    | ErrorJson(status: nat, message: string)
  {
    function Status(): nat
    {
      if ErrorJson? then status else OkStatus
    }
  }

  datatype Request =
    | CreateInvitation(fields: InvitationFields, files: seq<Upload>)
    | GetInvitation(slug: string)
    | AddEntry(invitationId: int, name: string, message: string, now: int)
    | ListEntries(invitationId: int)

  // ---------------------------------------------------------------------
  // Table invariants: what SQLite's PRIMARY KEY AUTOINCREMENT and the
  // UNIQUE slug constraint keep true.

  ghost predicate UniqueSlugs(rows: seq<InvitationRow>)
  {
    forall i, j :: 0 <= i < j < |rows| ==> rows[i].slug != rows[j].slug
  }

  ghost predicate InvitationIdsIssued(rows: seq<InvitationRow>, last: nat)
  {
    && (forall i, j :: 0 <= i < j < |rows| ==> rows[i].id < rows[j].id)
    && (forall i :: 0 <= i < |rows| ==> 0 < rows[i].id <= last)
  }

  ghost predicate EntryIdsIssued(rows: seq<EntryRow>, last: nat)
  {
    && (forall i, j :: 0 <= i < j < |rows| ==> rows[i].id < rows[j].id)
    && (forall i :: 0 <= i < |rows| ==> 0 < rows[i].id <= last)
  }

  /** The foreign key: every entry belongs to a stored invitation. */
  ghost predicate EntriesReferToInvitations(st: Store)
  {
    forall e :: e in st.guestbook ==> HasInvitationId(st.invitations, e.invitationId)
  }

  ghost predicate Valid(st: Store)
  {
    && UniqueSlugs(st.invitations)
    && InvitationIdsIssued(st.invitations, st.invitationSeq)
    && EntryIdsIssued(st.guestbook, st.entrySeq)
    && EntriesReferToInvitations(st)
  }

  // ---------------------------------------------------------------------
  // Lookups

  predicate HasSlug(rows: seq<InvitationRow>, slug: string)
  {
    exists r :: r in rows && r.slug == slug
  }

  /** `SELECT * FROM invitations WHERE slug = ?` with `.get`: the first match. */
  function FindBySlug(rows: seq<InvitationRow>, slug: string): (r: Option<InvitationRow>)
    ensures r.Some? ==> r.value in rows && r.value.slug == slug
    ensures r.None? <==> !HasSlug(rows, slug)
  {
    if rows == [] then None
    else if rows[0].slug == slug then Some(rows[0])
    else FindBySlug(rows[1..], slug)
  }

  /** The id column of each table. */
  function InvitationId(row: InvitationRow): nat { row.id }
  function EntryId(row: EntryRow): nat { row.id }

  /** `SELECT * FROM <table> WHERE id = ?` with `.get`, for either table:
      the first row whose id column is `id`. */
  function FindById<R(==)>(rows: seq<R>, idOf: R -> nat, id: nat): (r: Option<R>)
    ensures r.Some? ==> r.value in rows && idOf(r.value) == id
    ensures r.None? ==> forall row :: row in rows ==> idOf(row) != id
  {
    if rows == [] then None
    else if idOf(rows[0]) == id then Some(rows[0])
    else FindById(rows[1..], idOf, id)
  }

  /** Whether an invitation has this id: what the guestbook's foreign key
      checks. */
  predicate HasInvitationId(rows: seq<InvitationRow>, id: int)
  {
    exists row :: row in rows && row.id == id
  }

  // ---------------------------------------------------------------------
  // POST /api/invitations

  /** The row the INSERT statement writes. */
  function NewRow(st: Store, f: InvitationFields, files: seq<Upload>, slugify: Slugifier): (row: InvitationRow)
    ensures row.id == st.invitationSeq + 1
    ensures row.slug == slugify(f.brideNames + "-" + f.groomNames)
    ensures row.brideNames == f.brideNames && row.groomNames == f.groomNames
    ensures row.date == f.date && row.venue == f.venue && row.templateId == f.templateId
    ensures row.photos.JsonList? && |row.photos.urls| == |FilesFor(files, PhotosField)|
    ensures row.musicUrl.None? <==> forall u :: u in files ==> u.field != MusicField
  {
    var music := FilesFor(files, MusicField);
    InvitationRow(
      st.invitationSeq + 1, SlugOf(f, slugify), f.brideNames, f.groomNames, f.date, f.venue,
      JsonList(UploadUrls(FilesFor(files, PhotosField))),
      if music == [] then None else Some(UploadUrl(StoredFilename(music[0]))),
      f.templateId)
  }

  /** Multer first (an over-limit or unexpected file never reaches the
      handler); then the INSERT, which fails on an existing slug; then the
      re-read by id, whose photos are parsed for the response. */
  function Create(st: Store, f: InvitationFields, files: seq<Upload>, slugify: Slugifier): (r: (Store, Response))
    ensures r.1.InvitationJson? ==> UploadsAccepted(files)
    ensures r.1.InvitationJson? ==> !HasSlug(st.invitations, SlugOf(f, slugify))
    ensures r.1.Status() == OkStatus || r.1.Status() == ServerErrorStatus
    ensures !UploadsAccepted(files) ==> r == (st, ErrorJson(ServerErrorStatus, UnexpectedFieldMessage))
    ensures HasSlug(st.invitations, SlugOf(f, slugify)) ==> r.0 == st && r.1.ErrorJson?
    ensures UploadsAccepted(files) && HasSlug(st.invitations, SlugOf(f, slugify)) ==>
      r == (st, ErrorJson(ServerErrorStatus, CreateFailedMessage))
    ensures r.0.guestbook == st.guestbook
  {
    if !UploadsAccepted(files) then
      (st, ErrorJson(ServerErrorStatus, UnexpectedFieldMessage))
    else if HasSlug(st.invitations, SlugOf(f, slugify)) then
      (st, ErrorJson(ServerErrorStatus, CreateFailedMessage))
    else
      var row := NewRow(st, f, files, slugify);
      var st' := st.(invitations := st.invitations + [row], invitationSeq := row.id);
      match FindById(st'.invitations, InvitationId, row.id)
      case Some(stored) => (st', InvitationJson(Hydrate(stored)))
      // `invitation.photos` on an undefined row throws into the catch block
      case None => (st', ErrorJson(ServerErrorStatus, CreateFailedMessage))
  }

  // ---------------------------------------------------------------------
  // GET /api/invitations/:slug

  function Get(st: Store, slug: string): (r: (Store, Response))
    ensures r.0 == st
    ensures r.1.InvitationJson? || r.1 == ErrorJson(NotFoundStatus, NotFoundMessage)
    ensures r.1.Status() == if HasSlug(st.invitations, slug) then OkStatus else NotFoundStatus
    ensures r.1.InvitationJson? ==> r.1.invitation.slug == slug
  {
    match FindBySlug(st.invitations, slug)
    case None => (st, ErrorJson(NotFoundStatus, NotFoundMessage))
    case Some(row) => (st, InvitationJson(Hydrate(row)))
  }

  // ---------------------------------------------------------------------
  // POST /api/guestbook/:invitationId

  /** The guestbook table's `FOREIGN KEY(invitationId) REFERENCES
      invitations(id)` is enforced (better-sqlite3 opens connections with
      foreign keys on), so the INSERT fails for an id no invitation has and
      the catch block answers 500. Nothing checks the name or the message. */
  function Add(st: Store, invitationId: int, name: string, message: string, now: int): (r: (Store, Response))
    ensures r.0.invitations == st.invitations
    ensures |st.guestbook| <= |r.0.guestbook| && r.0.guestbook[..|st.guestbook|] == st.guestbook
    ensures |r.0.guestbook| == |st.guestbook| + 1 <==> HasInvitationId(st.invitations, invitationId)
    ensures !HasInvitationId(st.invitations, invitationId)
            ==> r == (st, ErrorJson(ServerErrorStatus, EntryFailedMessage))
  {
    if !HasInvitationId(st.invitations, invitationId) then
      (st, ErrorJson(ServerErrorStatus, EntryFailedMessage))
    else
      var entry := EntryRow(st.entrySeq + 1, invitationId, name, message, now);
      var st' := st.(guestbook := st.guestbook + [entry], entrySeq := entry.id);
      match FindById(st'.guestbook, EntryId, entry.id)
      case Some(stored) => (st', EntryJson(stored))
      case None => (st', EmptyJson)
  }

  // ---------------------------------------------------------------------
  // GET /api/guestbook/:invitationId

  /** `WHERE invitationId = ?`, in table order. */
  function EntriesFor(rows: seq<EntryRow>, invitationId: int): (r: seq<EntryRow>)
    ensures forall e :: e in r <==> e in rows && e.invitationId == invitationId
  {
    if rows == [] then []
    else if rows[0].invitationId == invitationId then [rows[0]] + EntriesFor(rows[1..], invitationId)
    else EntriesFor(rows[1..], invitationId)
  }

  /** The filter keeps each matching entry as many times as it is stored. */
  lemma {:induction false} EntriesForCounts(rows: seq<EntryRow>, invitationId: int)
    ensures forall e :: multiset(EntriesFor(rows, invitationId))[e]
                     == if e.invitationId == invitationId then multiset(rows)[e] else 0
  {
    if rows != [] {
      assert rows == [rows[0]] + rows[1..];
      EntriesForCounts(rows[1..], invitationId);
    }
  }

  /** `ORDER BY createdAt DESC`. */
  ghost predicate NewestFirst(es: seq<EntryRow>)
  {
    forall i, j :: 0 <= i < j < |es| ==> es[i].createdAt >= es[j].createdAt
  }

  /** Every element of a permutation of `es` plus `e` is no newer than a
      bound that `e` and all of `es` stay under. */
  lemma NoNewerThan(bound: int, rest: seq<EntryRow>, es: seq<EntryRow>, e: EntryRow)
    requires multiset(rest) == multiset(es) + multiset{e}
    requires forall i :: 0 <= i < |es| ==> es[i].createdAt <= bound
    requires e.createdAt <= bound
    ensures forall k :: 0 <= k < |rest| ==> rest[k].createdAt <= bound
  {
    forall k | 0 <= k < |rest| ensures rest[k].createdAt <= bound {
      assert rest[k] in multiset(rest);
      if rest[k] != e {
        assert rest[k] in multiset(es);
        var i :| 0 <= i < |es| && es[i] == rest[k];
      }
    }
  }

  function InsertByRecency(e: EntryRow, es: seq<EntryRow>): (r: seq<EntryRow>)
    requires NewestFirst(es)
    ensures NewestFirst(r)
    ensures multiset(r) == multiset(es) + multiset{e}
  {
    if es == [] || e.createdAt >= es[0].createdAt then [e] + es
    else
      var tail := es[1..];
      assert NewestFirst(tail);
      var rest := InsertByRecency(e, tail);
      assert es == [es[0]] + tail;
      assert forall k :: 0 <= k < |rest| ==> rest[k].createdAt <= es[0].createdAt by {
        NoNewerThan(es[0].createdAt, rest, tail, e);
      }
      [es[0]] + rest
  }

  /** An ordering sort: SQL leaves the order of equal timestamps open and this
      one keeps table order among them. */
  function SortByRecency(es: seq<EntryRow>): (r: seq<EntryRow>)
    ensures NewestFirst(r)
    ensures multiset(r) == multiset(es)
  {
    if es == [] then []
    else
      assert es == [es[0]] + es[1..];
      InsertByRecency(es[0], SortByRecency(es[1..]))
  }

  function List(st: Store, invitationId: int): (r: (Store, Response))
    ensures r.0 == st
    ensures r.1.EntriesJson? && r.1.Status() == OkStatus
    ensures NewestFirst(r.1.entries)
    ensures forall e :: e in r.1.entries ==> e.invitationId == invitationId
    ensures forall e :: multiset(r.1.entries)[e] == if e.invitationId == invitationId then multiset(st.guestbook)[e] else 0
    ensures r.1.entries == [] <==> forall e :: e in st.guestbook ==> e.invitationId != invitationId
  {
    var entries := SortByRecency(EntriesFor(st.guestbook, invitationId));
    EntriesForCounts(st.guestbook, invitationId);
    assert forall e :: e in entries <==> e in EntriesFor(st.guestbook, invitationId) by {
      forall e ensures e in entries <==> e in EntriesFor(st.guestbook, invitationId) {
        assert e in entries <==> e in multiset(entries);
      }
    }
    (st, EntriesJson(entries))
  }

  // ---------------------------------------------------------------------
  // The whole server

  /** Which route answers a request. Only the two POST routes write, each
      to its own table. */
  function Handle(st: Store, req: Request, slugify: Slugifier): (r: (Store, Response))
    ensures req.GetInvitation? || req.ListEntries? ==> r.0 == st
    ensures !req.AddEntry? ==> r.0.guestbook == st.guestbook
    ensures !req.CreateInvitation? ==> r.0.invitations == st.invitations
    ensures req.GetInvitation? ==> r.1.Status() == OkStatus || r.1.Status() == NotFoundStatus
    ensures !req.GetInvitation? ==> r.1.Status() != NotFoundStatus
  {
    match req
    case CreateInvitation(f, files) => Create(st, f, files, slugify)
    case GetInvitation(slug) => Get(st, slug)
    case AddEntry(id, name, message, now) => Add(st, id, name, message, now)
    case ListEntries(id) => List(st, id)
  }

  /** The store after serving `reqs` in order. */
  function Run(st: Store, reqs: seq<Request>, slugify: Slugifier): Store
    decreases |reqs|
  {
    if reqs == [] then st
    else Run(Handle(st, reqs[0], slugify).0, reqs[1..], slugify)
  }
}

=== FILE: photo_upload.dfy ===
/** The `PhotoUpload` component of client/src/pages/create.tsx: a list of at
    most seven chosen photos, grown by a file-picker batch and shrunk by
    removing one photo by its position. */
module PhotoUpload {
  import opened Base

  /** A browser `File`; the preview URL the component attaches is display
      only and not modelled. */
  datatype File = File(name: string)

  const MaxPhotos: nat := 7

  datatype Toast = Toast(title: string, description: string)

  const TooManyPhotos: Toast := Toast("Too many photos", "You can only upload up to 7 photos")

  /** The photo list after a change event, and the toast it raised. */
  datatype PhotoChange = PhotoChange(photos: seq<File>, toast: Option<Toast>)

  /** `handlePhotoChange`: the picked files (`event.target.files || []`) are
      refused as a whole when they would take the list past seven, and
      otherwise appended. */
  function HandlePhotoChange(photos: seq<File>, picked: Option<seq<File>>): (r: PhotoChange)
    ensures var files := picked.GetOr([]);
      && (r.toast.Some? <==> |photos| + |files| > MaxPhotos)
      && (r.toast.Some? ==> r.toast.value == TooManyPhotos && r.photos == photos)
      && (r.toast.None? ==>
            && |r.photos| == |photos| + |files|
            && r.photos[..|photos|] == photos
            && r.photos[|photos|..] == files)
  {
    var files := picked.GetOr([]);
    if |files| + |photos| > MaxPhotos then PhotoChange(photos, Some(TooManyPhotos))
    else PhotoChange(photos + files, None)
  }

  /** `photos.filter((_, i) => i !== index)`, walking the list with the
      position `at` of its first element. */
  function FilterOutIndex(photos: seq<File>, index: int, at: int): (r: seq<File>)
    ensures at <= index < at + |photos| ==> r == photos[..index - at] + photos[index - at + 1..]
    ensures !(at <= index < at + |photos|) ==> r == photos
    decreases |photos|
  {
    if photos == [] then []
    else
      var rest := FilterOutIndex(photos[1..], index, at + 1);
      assert photos == [photos[0]] + photos[1..];
      if index == at then rest else [photos[0]] + rest
  }

  /** `removePhoto(index)`: exactly the photo at `index` leaves the list, the
      others keep their order, and an index outside the list changes
      nothing. */
  function RemovePhoto(photos: seq<File>, index: int): (r: seq<File>)
    ensures 0 <= index < |photos| ==> |r| == |photos| - 1
    ensures 0 <= index < |photos| ==>
      && r[..index] == photos[..index]
      && forall k :: index <= k < |r| ==> r[k] == photos[k + 1]
    ensures !(0 <= index < |photos|) ==> r == photos
  {
    FilterOutIndex(photos, index, 0)
  }

  /** `photos.length < 7 && <upload control>` */
  predicate ShowsUploadControl(photos: seq<File>)
  {
    |photos| < MaxPhotos
  }

  /** What the user can do to the list. */
  datatype PhotoEvent = Pick(files: Option<seq<File>>) | Remove(index: int)

  function Step(photos: seq<File>, ev: PhotoEvent): seq<File>
  {
    match ev
    case Pick(files) => HandlePhotoChange(photos, files).photos
    case Remove(index) => RemovePhoto(photos, index)
  }

  /** The list after the events `evs`, in order. */
  function Replay(photos: seq<File>, evs: seq<PhotoEvent>): seq<File>
    decreases |evs|
  {
    if evs == [] then photos else Replay(Step(photos, evs[0]), evs[1..])
  }

  /** Replaying one more event steps from where the replay left off. */
  lemma {:induction false} ReplayAppend(photos: seq<File>, evs: seq<PhotoEvent>, ev: PhotoEvent)
    ensures Replay(photos, evs + [ev]) == Step(Replay(photos, evs), ev)
    decreases |evs|
  {
    if evs != [] {
      assert (evs + [ev])[1..] == evs[1..] + [ev];
      ReplayAppend(Step(photos, evs[0]), evs[1..], ev);
    } else {
      assert Replay(photos, [ev]) == Replay(Step(photos, ev), []);
    }
  }

  /** No event sequence takes a list of at most seven photos past seven,
      whether or not the upload control was on screen. */
  lemma {:induction false} ReplayKeepsLimit(photos: seq<File>, evs: seq<PhotoEvent>)
    requires |photos| <= MaxPhotos
    ensures |Replay(photos, evs)| <= MaxPhotos
    decreases |evs|
  {
    if evs != [] {
      ReplayKeepsLimit(Step(photos, evs[0]), evs[1..]);
    }
  }

  /** From the form's default empty list, the component never holds more
      than seven photos. */
  lemma SevenPhotoInvariant(evs: seq<PhotoEvent>)
    ensures |Replay([], evs)| <= MaxPhotos
  {
    ReplayKeepsLimit([], evs);
  }

  /** The upload control is on screen exactly when one more photo would be
      accepted, and once it is gone the list is full. */
  lemma UploadControlMeansRoom(evs: seq<PhotoEvent>, f: File)
    ensures var photos := Replay([], evs);
      && (ShowsUploadControl(photos) <==> HandlePhotoChange(photos, Some([f])).toast.None?)
      && (!ShowsUploadControl(photos) ==> |photos| == MaxPhotos)
  {
    SevenPhotoInvariant(evs);
  }

  /** Removing a photo and picking it again moves it to the end and brings
      the list back to its size. */
  lemma RemoveThenPickAgain(photos: seq<File>, index: int)
    requires |photos| <= MaxPhotos
    requires 0 <= index < |photos|
    ensures var after := HandlePhotoChange(RemovePhoto(photos, index), Some([photos[index]]));
      && after.toast == None
      && after.photos == photos[..index] + photos[index + 1..] + [photos[index]]
  {
  }
}

=== FILE: store_properties.dfy ===
/** What the routes of server/routes.ts guarantee, stated over the
    transition functions of `InvitationStore`. */
module StoreProperties {
  import opened Base
  import opened InvitationStore

  // ---------------------------------------------------------------------
  // Helpers about the row lookups

  /** A row appended with an id above every earlier one is what the re-read
      by `lastInsertRowid` finds. */
  lemma {:induction false} FindAppended<R>(pre: seq<R>, idOf: R -> nat, row: R)
    requires forall r :: r in pre ==> idOf(r) < idOf(row)
    ensures FindById(pre + [row], idOf, idOf(row)) == Some(row)
  {
    if pre != [] {
      assert (pre + [row])[1..] == pre[1..] + [row];
      FindAppended(pre[1..], idOf, row);
    }
  }

  /** With unique slugs, the first row carrying a slug is the only one. */
  lemma FindBySlugUnique(rows: seq<InvitationRow>, i: int)
    requires UniqueSlugs(rows)
    requires 0 <= i < |rows|
    ensures FindBySlug(rows, rows[i].slug) == Some(rows[i])
  {
    var found := FindBySlug(rows, rows[i].slug);
    var k :| 0 <= k < |rows| && rows[k] == found.value;
    assert k == i;
  }

  /** The files under one field, when every file is under that field. */
  lemma {:induction false} FilesForOneField(files: seq<Upload>, field: string, other: string)
    requires forall u :: u in files ==> u.field == field
    requires other != field
    ensures FilesFor(files, field) == files
    ensures FilesFor(files, other) == []
  {
    if files != [] {
      FilesForOneField(files[1..], field, other);
    }
  }

  // ---------------------------------------------------------------------
  // POST /api/invitations

  /** Boundary of multer's photo limit: a batch of photo files reaches the
      handler when it holds at most seven files and is refused at eight or
      more. */
  lemma PhotoBatchLimit(files: seq<Upload>)
    requires forall u :: u in files ==> u.field == PhotosField
    ensures UploadsAccepted(files) <==> |files| <= MaxPhotos
  {
    FilesForOneField(files, PhotosField, MusicField);
  }

  /** The create's outcome once multer and the slug check have let it
      through: the row `NewRow` builds is appended and sent back. */
  lemma CreateStoresNewRow(st: Store, f: InvitationFields, files: seq<Upload>, slugify: Slugifier)
    requires Valid(st)
    requires UploadsAccepted(files)
    requires !HasSlug(st.invitations, SlugOf(f, slugify))
    ensures var row := NewRow(st, f, files, slugify);
      && (forall r :: r in st.invitations ==> r.id < row.id)
      && Create(st, f, files, slugify)
         == (st.(invitations := st.invitations + [row], invitationSeq := row.id), InvitationJson(Hydrate(row)))
  {
    var row := NewRow(st, f, files, slugify);
    assert forall r :: r in st.invitations ==> r.id < row.id by {
      forall r | r in st.invitations ensures r.id < row.id {
        var k :| 0 <= k < |st.invitations| && st.invitations[k] == r;
      }
    }
    FindAppended(st.invitations, InvitationId, row);
  }

  /** A create that gets past multer with a fresh slug inserts exactly one
      row, with an id above every id already issued, keeps every earlier row
      as it was, leaves the guestbook alone, and answers with the new row. */
  lemma CreateAddsOneRow(st: Store, f: InvitationFields, files: seq<Upload>, slugify: Slugifier)
    requires Valid(st)
    requires UploadsAccepted(files)
    requires !HasSlug(st.invitations, SlugOf(f, slugify))
    ensures var (st', resp) := Create(st, f, files, slugify);
      && |st'.invitations| == |st.invitations| + 1
      && st'.invitations[..|st.invitations|] == st.invitations
      && st'.guestbook == st.guestbook
      && var row := st'.invitations[|st.invitations|];
      && (forall r :: r in st.invitations ==> r.id < row.id)
      && row.slug == slugify(f.brideNames + "-" + f.groomNames)
      && row.brideNames == f.brideNames && row.groomNames == f.groomNames
      && row.date == f.date && row.venue == f.venue && row.templateId == f.templateId
      && resp == InvitationJson(Hydrate(row))
  {
    CreateStoresNewRow(st, f, files, slugify);
    var row := NewRow(st, f, files, slugify);
    assert (st.invitations + [row])[..|st.invitations|] == st.invitations;
  }

  /** The public path of a stored photo. */
  lemma PhotoUrl(u: Upload)
    requires u.field == PhotosField
    ensures UploadUrl(StoredFilename(u)) == "/uploads/photos-" + u.uniqueSuffix + u.extension
    ensures FilenameOf(UploadUrl(StoredFilename(u))) == Some(StoredFilename(u))
  {
    var name := StoredFilename(u);
    assert (UploadPrefix + name)[..|UploadPrefix|] == UploadPrefix;
    assert (UploadPrefix + name)[|UploadPrefix|..] == name;
  }

  /** The public path of a stored music file. */
  lemma MusicUrl(u: Upload)
    requires u.field == MusicField
    ensures "/uploads/" + StoredFilename(u) == "/uploads/musicFile-" + u.uniqueSuffix + u.extension
  {
  }

  /** The first invitation of an empty store gets id 1 and, without a music
      file, a null `musicUrl`. */
  lemma FirstInvitation(f: InvitationFields, files: seq<Upload>, slugify: Slugifier)
    requires UploadsAccepted(files)
    requires forall u :: u in files ==> u.field == PhotosField
    ensures Create(EmptyStore, f, files, slugify).1.InvitationJson?
    ensures Create(EmptyStore, f, files, slugify).1.invitation.id == 1
    ensures Create(EmptyStore, f, files, slugify).1.invitation.musicUrl == None
  {
    FilesForOneField(files, PhotosField, MusicField);
    CreateAddsOneRow(EmptyStore, f, files, slugify);
  }

  /** The stored and returned photo list has one path per uploaded photo, in
      upload order, each naming multer's `photos-<suffix><ext>` file under
      `/uploads/`; each path leads back to its stored file. */
  lemma CreatedPhotosFollowUploads(st: Store, f: InvitationFields, files: seq<Upload>, slugify: Slugifier)
    requires Valid(st)
    requires UploadsAccepted(files)
    requires !HasSlug(st.invitations, SlugOf(f, slugify))
    ensures Create(st, f, files, slugify).1.InvitationJson?
    ensures var inv := Create(st, f, files, slugify).1.invitation;
      var photos := FilesFor(files, PhotosField);
      && |inv.photos| == |photos| <= MaxPhotos
      && (forall i :: 0 <= i < |photos| ==>
            inv.photos[i] == "/uploads/photos-" + photos[i].uniqueSuffix + photos[i].extension)
      && (forall i :: 0 <= i < |photos| ==> FilenameOf(inv.photos[i]) == Some(StoredFilename(photos[i])))
  {
    CreateStoresNewRow(st, f, files, slugify);
    var photos := FilesFor(files, PhotosField);
    forall i | 0 <= i < |photos|
      ensures UploadUrl(StoredFilename(photos[i])) == "/uploads/photos-" + photos[i].uniqueSuffix + photos[i].extension
      ensures FilenameOf(UploadUrl(StoredFilename(photos[i]))) == Some(StoredFilename(photos[i]))
    {
      assert photos[i] in photos;
      PhotoUrl(photos[i]);
    }
  }

  /** `musicUrl` is the path of the uploaded music file when there is one,
      and null exactly when none was uploaded. */
  lemma CreatedMusicUrl(st: Store, f: InvitationFields, files: seq<Upload>, slugify: Slugifier)
    requires Valid(st)
    requires UploadsAccepted(files)
    requires !HasSlug(st.invitations, SlugOf(f, slugify))
    ensures Create(st, f, files, slugify).1.InvitationJson?
    ensures var inv := Create(st, f, files, slugify).1.invitation;
      && (inv.musicUrl.None? <==> forall u :: u in files ==> u.field != MusicField)
      && (forall u :: u in files && u.field == MusicField ==>
            inv.musicUrl == Some("/uploads/" + StoredFilename(u))
            && inv.musicUrl == Some("/uploads/musicFile-" + u.uniqueSuffix + u.extension))
  {
    CreateStoresNewRow(st, f, files, slugify);
    var music := FilesFor(files, MusicField);
    if music != [] {
      assert music[0] in music;
      forall u | u in files && u.field == MusicField ensures u == music[0] {
        assert u in music;
      }
      MusicUrl(music[0]);
    }
  }

  /** Two couples with the same names get the same slug, so once the first
      is stored the second create fails with a 500 and changes nothing. */
  lemma SameNamesCollide(st: Store, f1: InvitationFields, files1: seq<Upload>,
                         f2: InvitationFields, files2: seq<Upload>, slugify: Slugifier)
    requires UploadsAccepted(files1)
    requires !HasSlug(st.invitations, SlugOf(f1, slugify))
    requires f2.brideNames == f1.brideNames && f2.groomNames == f1.groomNames
    requires UploadsAccepted(files2)
    ensures var st1 := Create(st, f1, files1, slugify).0;
      Create(st1, f2, files2, slugify) == (st1, ErrorJson(ServerErrorStatus, CreateFailedMessage))
  {
    var st1 := Create(st, f1, files1, slugify).0;
    var row := NewRow(st, f1, files1, slugify);
    assert st1.invitations == st.invitations + [row];
    assert row in st1.invitations;
    assert SlugOf(f2, slugify) == row.slug;
  }

  // ---------------------------------------------------------------------
  // GET /api/invitations/:slug

  /** A stored invitation is found by its slug, and the answer is that row. */
  lemma GetReturnsStoredRow(st: Store, i: int)
    requires Valid(st)
    requires 0 <= i < |st.invitations|
    ensures Get(st, st.invitations[i].slug) == (st, InvitationJson(Hydrate(st.invitations[i])))
  {
    FindBySlugUnique(st.invitations, i);
  }

  /** Reading an invitation back by its slug yields exactly what the create
      returned, photo paths and their order included. */
  lemma CreateThenGet(st: Store, f: InvitationFields, files: seq<Upload>, slugify: Slugifier)
    requires Valid(st)
    requires UploadsAccepted(files)
    requires !HasSlug(st.invitations, SlugOf(f, slugify))
    ensures var (st', resp) := Create(st, f, files, slugify);
      Get(st', SlugOf(f, slugify)) == (st', resp)
  {
    var (st', resp) := Create(st, f, files, slugify);
    CreateAddsOneRow(st, f, files, slugify);
    CreatePreservesValid(st, f, files, slugify);
    GetReturnsStoredRow(st', |st.invitations|);
  }

  // ---------------------------------------------------------------------
  // The guestbook routes

  /** Adding an entry for a stored invitation appends exactly one row
      carrying the given id, name, message and time; the invitations table
      is untouched and the answer is the new row. */
  lemma AddAppendsEntry(st: Store, invitationId: int, name: string, message: string, now: int)
    requires Valid(st)
    requires HasInvitationId(st.invitations, invitationId)
    ensures var (st', resp) := Add(st, invitationId, name, message, now);
      && resp.EntryJson?
      && st'.guestbook == st.guestbook + [resp.entry]
      && st'.invitations == st.invitations
      && resp.entry.invitationId == invitationId
      && resp.entry.name == name && resp.entry.message == message
      && resp.entry.createdAt == now
      && (forall e :: e in st.guestbook ==> e.id < resp.entry.id)
  {
    var entry := EntryRow(st.entrySeq + 1, invitationId, name, message, now);
    assert forall e :: e in st.guestbook ==> e.id < entry.id by {
      forall e | e in st.guestbook ensures e.id < entry.id {
        var k :| 0 <= k < |st.guestbook| && st.guestbook[k] == e;
      }
    }
    FindAppended(st.guestbook, EntryId, entry);
  }

  lemma {:induction false} EntriesForAppend(rows: seq<EntryRow>, e: EntryRow, invitationId: int)
    ensures EntriesFor(rows + [e], invitationId)
         == EntriesFor(rows, invitationId) + (if e.invitationId == invitationId then [e] else [])
  {
    if rows != [] {
      assert (rows + [e])[0] == rows[0];
      assert (rows + [e])[1..] == rows[1..] + [e];
      EntriesForAppend(rows[1..], e, invitationId);
    } else {
      assert rows + [e] == [e];
    }
  }

  /** A guest's entry shows only in its own invitation's list. */
  lemma AddLeavesOtherListsAlone(st: Store, invitationId: int, name: string, message: string, now: int, other: int)
    requires other != invitationId
    ensures List(Add(st, invitationId, name, message, now).0, other).1 == List(st, other).1
  {
    var entry := EntryRow(st.entrySeq + 1, invitationId, name, message, now);
    var st' := Add(st, invitationId, name, message, now).0;
    if HasInvitationId(st.invitations, invitationId) {
      assert st'.guestbook == st.guestbook + [entry];
      EntriesForAppend(st.guestbook, entry, other);
    }
    assert EntriesFor(st'.guestbook, other) == EntriesFor(st.guestbook, other);
    assert List(st', other).1 == EntriesJson(SortByRecency(EntriesFor(st'.guestbook, other)));
    assert List(st, other).1 == EntriesJson(SortByRecency(EntriesFor(st.guestbook, other)));
  }

  /** An entry written later than every stored one heads its invitation's
      list. */
  lemma NewestEntryListedFirst(st: Store, invitationId: int, name: string, message: string, now: int)
    requires Valid(st)
    requires HasInvitationId(st.invitations, invitationId)
    requires forall e :: e in st.guestbook ==> e.createdAt < now
    ensures var (st', resp) := Add(st, invitationId, name, message, now);
      var listed := List(st', invitationId).1.entries;
      |listed| > 0 && listed[0] == resp.entry
  {
    AddAppendsEntry(st, invitationId, name, message, now);
    var (st', resp) := Add(st, invitationId, name, message, now);
    var listed := List(st', invitationId).1.entries;
    assert multiset(st'.guestbook)[resp.entry] > 0;
    assert resp.entry in multiset(listed);
    var k :| 0 <= k < |listed| && listed[k] == resp.entry;
    assert listed[0].createdAt >= now;
    assert listed[0] in multiset(listed);
    assert listed[0] in st'.guestbook;
  }

  /** In a served store, an id no invitation has is refused with a 500
      and changes nothing, and its guestbook list is empty. */
  lemma DanglingIdRefused(st: Store, invitationId: int, name: string, message: string, now: int)
    requires Valid(st)
    requires !HasInvitationId(st.invitations, invitationId)
    ensures Add(st, invitationId, name, message, now) == (st, ErrorJson(ServerErrorStatus, EntryFailedMessage))
    ensures List(st, invitationId).1 == EntriesJson([])
  {
  }

  // ---------------------------------------------------------------------
  // The store invariant

  lemma CreatePreservesValid(st: Store, f: InvitationFields, files: seq<Upload>, slugify: Slugifier)
    requires Valid(st)
    ensures Valid(Create(st, f, files, slugify).0)
  {
    if UploadsAccepted(files) && !HasSlug(st.invitations, SlugOf(f, slugify)) {
      CreateStoresNewRow(st, f, files, slugify);
      var row := NewRow(st, f, files, slugify);
      var rows := st.invitations + [row];
      assert Create(st, f, files, slugify).0 == st.(invitations := rows, invitationSeq := row.id);
      var n := |st.invitations|;
      forall i | 0 <= i < n ensures rows[i].slug != row.slug && rows[i].id < row.id {
        assert st.invitations[i] in st.invitations;
      }
      assert UniqueSlugs(rows);
      assert InvitationIdsIssued(rows, row.id);
      forall e | e in st.guestbook ensures HasInvitationId(rows, e.invitationId) {
        var r :| r in st.invitations && r.id == e.invitationId;
        assert r in rows;
      }
    }
  }

  /** An add keeps entry ids increasing within their counter, and the
      foreign key check keeps every entry pointing at a stored invitation. */
  lemma AddPreservesValid(st: Store, invitationId: int, name: string, message: string, now: int)
    requires Valid(st)
    ensures Valid(Add(st, invitationId, name, message, now).0)
  {
    if HasInvitationId(st.invitations, invitationId) {
      var entry := EntryRow(st.entrySeq + 1, invitationId, name, message, now);
      var rows := st.guestbook + [entry];
      var st' := st.(guestbook := rows, entrySeq := entry.id);
      assert Add(st, invitationId, name, message, now).0 == st';
      var n := |st.guestbook|;
      forall i | 0 <= i < n ensures rows[i].id < entry.id {
        assert st.guestbook[i] in st.guestbook;
      }
      assert EntryIdsIssued(rows, entry.id);
      assert EntriesReferToInvitations(st');
    }
  }

  lemma HandlePreservesValid(st: Store, req: Request, slugify: Slugifier)
    requires Valid(st)
    ensures Valid(Handle(st, req, slugify).0)
  {
    match req
    case CreateInvitation(f, files) => CreatePreservesValid(st, f, files, slugify);
    case GetInvitation(_) =>
    case AddEntry(id, name, message, now) => AddPreservesValid(st, id, name, message, now);
    case ListEntries(_) =>
  }

  lemma {:induction false} RunPreservesValid(st: Store, reqs: seq<Request>, slugify: Slugifier)
    requires Valid(st)
    ensures Valid(Run(st, reqs, slugify))
    decreases |reqs|
  {
    if reqs != [] {
      HandlePreservesValid(st, reqs[0], slugify);
      RunPreservesValid(Handle(st, reqs[0], slugify).0, reqs[1..], slugify);
    }
  }

  /** Whatever requests a fresh server has served, no two invitations share a
      slug, every guestbook entry belongs to a stored invitation, and every
      stored invitation is what its slug looks up. */
  lemma ServedStoreHasUniqueSlugs(reqs: seq<Request>, slugify: Slugifier, i: int)
    requires 0 <= i < |Run(EmptyStore, reqs, slugify).invitations|
    ensures UniqueSlugs(Run(EmptyStore, reqs, slugify).invitations)
    ensures EntriesReferToInvitations(Run(EmptyStore, reqs, slugify))
    ensures var st := Run(EmptyStore, reqs, slugify);
      Get(st, st.invitations[i].slug).1 == InvitationJson(Hydrate(st.invitations[i]))
  {
    RunPreservesValid(EmptyStore, reqs, slugify);
    GetReturnsStoredRow(Run(EmptyStore, reqs, slugify), i);
  }
}

=== FILE: submission.dfy ===
/** How the multipart body of client/src/pages/create.tsx reaches the
    create route of server/routes.ts: multer puts the text parts into
    `req.body` and stores every file part under its field name. The lemmas
    follow one submission from the photo picker to the stored invitation. */
module Submission {
  import opened Base
  import opened PhotoUpload
  import opened CreateForm
  import opened InvitationStore
  import StoreProperties

  /** `req.body[name]`: the value of the first text part with that name. */
  function TextValue(parts: seq<Part>, name: string): (r: Option<string>)
    ensures r.Some? ==> TextPart(name, r.value) in parts
    ensures r.None? <==> forall v :: TextPart(name, v) !in parts
  {
    if parts == [] then None
    else if parts[0].TextPart? && parts[0].name == name then Some(parts[0].value)
    else TextValue(parts[1..], name)
  }

  /** A field sent more than once reads as its first value: no text part of
      that name comes before the one `TextValue` returns. */
  lemma {:induction false} TextValueIsFirst(parts: seq<Part>, name: string)
    requires TextValue(parts, name).Some?
    ensures exists i :: 0 <= i < |parts| && parts[i] == TextPart(name, TextValue(parts, name).value)
                     && forall j :: 0 <= j < i ==> !(parts[j].TextPart? && parts[j].name == name)
  {
    if !(parts[0].TextPart? && parts[0].name == name) {
      TextValueIsFirst(parts[1..], name);
      var i :| 0 <= i < |parts[1..]| && parts[1..][i] == TextPart(name, TextValue(parts, name).value)
               && forall j :: 0 <= j < i ==> !(parts[1..][j].TextPart? && parts[1..][j].name == name);
      assert parts[i + 1] == parts[1..][i];
      assert forall j :: 1 <= j < i + 1 ==> parts[j] == parts[1..][j - 1];
    } else {
      assert parts[0] == TextPart(name, TextValue(parts, name).value);
    }
  }

  /** The file parts of a body, in arrival order. */
  function FileParts(parts: seq<Part>): (files: seq<Part>)
    ensures forall k :: 0 <= k < |files| ==> files[k].FilePart?
  {
    if parts == [] then []
    else if parts[0].FilePart? then [parts[0]] + FileParts(parts[1..])
    else FileParts(parts[1..])
  }

  /** The uploads multer's disk storage makes of a body after it has stored
      `seen` files: it walks the parts in arrival order and names each file
      part as it comes. `suffixOf(k)` stands for the clock-and-random suffix
      drawn for the k-th file, and `extensionOf` for the extension of the
      client's file name. */
  function Uploads(parts: seq<Part>, seen: nat, suffixOf: nat -> string, extensionOf: File -> string): (r: seq<Upload>)
    ensures |r| == |FileParts(parts)|
    ensures forall k :: 0 <= k < |r| ==>
      r[k] == Upload(FileParts(parts)[k].name, suffixOf(seen + k), extensionOf(FileParts(parts)[k].file))
  {
    if parts == [] then []
    else if parts[0].FilePart? then
      var rest := Uploads(parts[1..], seen + 1, suffixOf, extensionOf);
      var files := FileParts(parts);
      assert files == [parts[0]] + FileParts(parts[1..]);
      var r := [Upload(parts[0].name, suffixOf(seen), extensionOf(parts[0].file))] + rest;
      assert forall k :: 1 <= k < |r| ==> r[k] == rest[k - 1] && files[k] == FileParts(parts[1..])[k - 1];
      r
    else
      Uploads(parts[1..], seen, suffixOf, extensionOf)
  }

  /** The create request the server sees: the first value of each of the
      five text fields, and the files multer stored. A body lacking one of
      the text fields is outside the model. */
  function Receive(parts: seq<Part>, suffixOf: nat -> string, extensionOf: File -> string): (r: Option<Request>)
    ensures r.Some? <==>
      && TextValue(parts, "brideNames").Some? && TextValue(parts, "groomNames").Some?
      && TextValue(parts, "date").Some? && TextValue(parts, "venue").Some?
      && TextValue(parts, "templateId").Some?
    ensures r.Some? ==> r.value.CreateInvitation?
    ensures r.Some? ==> r.value.files == Uploads(parts, 0, suffixOf, extensionOf)
    ensures r.Some? ==>
      && TextPart("brideNames", r.value.fields.brideNames) in parts
      && TextPart("groomNames", r.value.fields.groomNames) in parts
      && TextPart("date", r.value.fields.date) in parts
      && TextPart("venue", r.value.fields.venue) in parts
      && TextPart("templateId", r.value.fields.templateId) in parts
  {
    match (TextValue(parts, "brideNames"), TextValue(parts, "groomNames"), TextValue(parts, "date"),
           TextValue(parts, "venue"), TextValue(parts, "templateId"))
    case (Some(b), Some(g), Some(d), Some(v), Some(t)) =>
      Some(CreateInvitation(InvitationFields(b, g, d, v, t), Uploads(parts, 0, suffixOf, extensionOf)))
    case _ => None
  }

  /** The uploads a photo list becomes once `from` files were stored before it. */
  function PhotoUploads(photos: seq<File>, from: nat, suffixOf: nat -> string, extensionOf: File -> string): (r: seq<Upload>)
    ensures |r| == |photos|
    ensures forall i :: 0 <= i < |photos| ==>
      r[i] == Upload(PhotosField, suffixOf(from + i), extensionOf(photos[i]))
  {
    if photos == [] then []
    else [Upload(PhotosField, suffixOf(from), extensionOf(photos[0]))]
         + PhotoUploads(photos[1..], from + 1, suffixOf, extensionOf)
  }

  /** The upload of the music file, if any, stored as the `at`-th file. */
  function MusicUploads(music: Option<File>, at: nat, suffixOf: nat -> string, extensionOf: File -> string): seq<Upload>
  {
    match music
    case Some(m) => [Upload(MusicField, suffixOf(at), extensionOf(m))]
    case None => []
  }

  // ---------------------------------------------------------------------
  // Helpers

  lemma {:induction false} FilePartsAppend(a: seq<Part>, b: seq<Part>)
    ensures FileParts(a + b) == FileParts(a) + FileParts(b)
  {
    if a != [] {
      assert (a + b)[0] == a[0];
      assert (a + b)[1..] == a[1..] + b;
      FilePartsAppend(a[1..], b);
    } else {
      assert a + b == b;
    }
  }

  lemma {:induction false} FilePartsOfPhotoParts(photos: seq<File>)
    ensures FileParts(PhotoParts(photos)) == PhotoParts(photos)
  {
    if photos != [] {
      var parts := PhotoParts(photos);
      assert parts == [parts[0]] + PhotoParts(photos[1..]);
      FilePartsOfPhotoParts(photos[1..]);
    }
  }

  lemma {:induction false} FilePartsOfTextParts(parts: seq<Part>)
    requires forall i :: 0 <= i < |parts| ==> parts[i].TextPart?
    ensures FileParts(parts) == []
  {
    if parts != [] {
      FilePartsOfTextParts(parts[1..]);
    }
  }

  lemma FilePartsOfFields(text: seq<Part>, photos: seq<File>)
    requires forall i :: 0 <= i < |text| ==> text[i].TextPart?
    ensures FileParts(text + PhotoParts(photos)) == PhotoParts(photos)
  {
    FilePartsAppend(text, PhotoParts(photos));
    FilePartsOfTextParts(text);
    FilePartsOfPhotoParts(photos);
  }

  /** The file parts of the body the form builds: its photos, then the
      music file if one is set. */
  lemma FilePartsOfSubmission(s: ValidForm)
    ensures FileParts(BuildFormData(s))
         == PhotoParts(s.photos) + match s.musicFile case Some(m) => [FilePart("musicFile", m)] case None => []
  {
    var text := [TextPart("brideNames", s.brideNames), TextPart("groomNames", s.groomNames),
                 TextPart("date", s.date), TextPart("venue", s.venue), TextPart("templateId", s.templateId)];
    var music := match s.musicFile case Some(m) => [FilePart("musicFile", m)] case None => [];
    assert BuildFormData(s) == text + PhotoParts(s.photos) + music;
    FilePartsAppend(text + PhotoParts(s.photos), music);
    FilePartsOfFields(text, s.photos);
    if s.musicFile.Some? {
      assert FileParts(music) == [music[0]] + FileParts([]);
    }
  }

  /** The uploads multer makes of the body the form builds: the photos are
      the first files it stores, the music file the last. */
  lemma UploadsOfSubmission(s: ValidForm, suffixOf: nat -> string, extensionOf: File -> string)
    ensures Uploads(BuildFormData(s), 0, suffixOf, extensionOf)
         == PhotoUploads(s.photos, 0, suffixOf, extensionOf) + MusicUploads(s.musicFile, |s.photos|, suffixOf, extensionOf)
  {
    var music := match s.musicFile case Some(m) => [FilePart("musicFile", m)] case None => [];
    var files := FileParts(BuildFormData(s));
    FilePartsOfSubmission(s);
    assert files == PhotoParts(s.photos) + music;
    var got := Uploads(BuildFormData(s), 0, suffixOf, extensionOf);
    var photos := PhotoUploads(s.photos, 0, suffixOf, extensionOf);
    var want := photos + MusicUploads(s.musicFile, |s.photos|, suffixOf, extensionOf);
    assert |got| == |want|;
    forall k | 0 <= k < |got| ensures got[k] == want[k] {
      if k < |s.photos| {
        assert files[k] == FilePart("photos", s.photos[k]);
        assert want[k] == photos[k];
      } else {
        assert files[k] == music[0];
      }
    }
  }

  lemma TextValueSkip(p: Part, rest: seq<Part>, name: string)
    requires !(p.TextPart? && p.name == name)
    ensures TextValue([p] + rest, name) == TextValue(rest, name)
  {
    assert ([p] + rest)[1..] == rest;
  }

  lemma TextValueHead(p: Part, rest: seq<Part>, name: string)
    requires p.TextPart? && p.name == name
    ensures TextValue([p] + rest, name) == Some(p.value)
  {
  }

  // ---------------------------------------------------------------------
  // From the form to the server

  /** The body multer parses out of the form's parts: the five text fields,
      each as the form holds it. */
  lemma BodyOfSubmission(s: ValidForm)
    ensures var parts := BuildFormData(s);
      && TextValue(parts, "brideNames") == Some(s.brideNames)
      && TextValue(parts, "groomNames") == Some(s.groomNames)
      && TextValue(parts, "date") == Some(s.date)
      && TextValue(parts, "venue") == Some(s.venue)
      && TextValue(parts, "templateId") == Some(s.templateId)
  {
    var text := [TextPart("brideNames", s.brideNames), TextPart("groomNames", s.groomNames),
                 TextPart("date", s.date), TextPart("venue", s.venue), TextPart("templateId", s.templateId)];
    var parts := BuildFormData(s);
    assert parts == text + parts[5..];
    TextFieldsRead(s.brideNames, s.groomNames, s.date, s.venue, s.templateId, parts[5..]);
  }

  /** A body that opens with the five text fields reads each of them back. */
  lemma TextFieldsRead(b: string, g: string, d: string, v: string, t: string, tail: seq<Part>)
    ensures var parts := [TextPart("brideNames", b), TextPart("groomNames", g), TextPart("date", d),
                          TextPart("venue", v), TextPart("templateId", t)] + tail;
      && TextValue(parts, "brideNames") == Some(b)
      && TextValue(parts, "groomNames") == Some(g)
      && TextValue(parts, "date") == Some(d)
      && TextValue(parts, "venue") == Some(v)
      && TextValue(parts, "templateId") == Some(t)
  {
    var p0, p1, p2, p3, p4 := TextPart("brideNames", b), TextPart("groomNames", g), TextPart("date", d),
                              TextPart("venue", v), TextPart("templateId", t);
    var t4 := [p4] + tail;
    var t3 := [p3] + t4;
    var t2 := [p2] + t3;
    var t1 := [p1] + t2;
    assert [p0, p1, p2, p3, p4] + tail == [p0] + t1;
    TextValueHead(p0, t1, "brideNames");
    TextValueSkip(p0, t1, "groomNames");
    TextValueHead(p1, t2, "groomNames");
    TextValueSkip(p0, t1, "date");
    TextValueSkip(p1, t2, "date");
    TextValueHead(p2, t3, "date");
    TextValueSkip(p0, t1, "venue");
    TextValueSkip(p1, t2, "venue");
    TextValueSkip(p2, t3, "venue");
    TextValueHead(p3, t4, "venue");
    TextValueSkip(p0, t1, "templateId");
    TextValueSkip(p1, t2, "templateId");
    TextValueSkip(p2, t3, "templateId");
    TextValueSkip(p3, t4, "templateId");
    TextValueHead(p4, tail, "templateId");
  }

  /** The server reads back the form's five text fields unchanged and finds
      the photos under `photos` in list order and the music file, if any,
      under `musicFile`; nothing else is uploaded. */
  lemma ReceiveSubmission(s: ValidForm, suffixOf: nat -> string, extensionOf: File -> string)
    ensures var req := Receive(BuildFormData(s), suffixOf, extensionOf);
      && req.Some? && req.value.CreateInvitation?
      && req.value.fields == InvitationFields(s.brideNames, s.groomNames, s.date, s.venue, s.templateId)
      && FilesFor(req.value.files, PhotosField) == PhotoUploads(s.photos, 0, suffixOf, extensionOf)
      && FilesFor(req.value.files, MusicField) == MusicUploads(s.musicFile, |s.photos|, suffixOf, extensionOf)
      && forall u :: u in req.value.files ==> u.field == PhotosField || u.field == MusicField
  {
    var photos := PhotoUploads(s.photos, 0, suffixOf, extensionOf);
    var music := MusicUploads(s.musicFile, |s.photos|, suffixOf, extensionOf);
    ReceivedRequest(s, suffixOf, extensionOf);
    GroupSubmittedUploads(s.photos, s.musicFile, suffixOf, extensionOf);
  }

  /** The request the server builds from the form's body. */
  lemma ReceivedRequest(s: ValidForm, suffixOf: nat -> string, extensionOf: File -> string)
    ensures Receive(BuildFormData(s), suffixOf, extensionOf)
         == Some(CreateInvitation(InvitationFields(s.brideNames, s.groomNames, s.date, s.venue, s.templateId),
                                  PhotoUploads(s.photos, 0, suffixOf, extensionOf)
                                  + MusicUploads(s.musicFile, |s.photos|, suffixOf, extensionOf)))
  {
    BodyOfSubmission(s);
    UploadsOfSubmission(s, suffixOf, extensionOf);
  }

  /** Multer's grouping of the form's uploads by field. */
  lemma GroupSubmittedUploads(photoFiles: seq<File>, musicFile: Option<File>,
                              suffixOf: nat -> string, extensionOf: File -> string)
    ensures var photos := PhotoUploads(photoFiles, 0, suffixOf, extensionOf);
      var music := MusicUploads(musicFile, |photoFiles|, suffixOf, extensionOf);
      && FilesFor(photos + music, PhotosField) == photos
      && FilesFor(photos + music, MusicField) == music
      && forall u :: u in photos + music ==> u.field == PhotosField || u.field == MusicField
  {
    var photos := PhotoUploads(photoFiles, 0, suffixOf, extensionOf);
    var music := MusicUploads(musicFile, |photoFiles|, suffixOf, extensionOf);
    PhotoUploadsAreUnderPhotos(photoFiles, 0, suffixOf, extensionOf);
    StoreProperties.FilesForOneField(photos, PhotosField, MusicField);
    assert forall u :: u in music ==> u.field == MusicField;
    StoreProperties.FilesForOneField(music, MusicField, PhotosField);
    FilesForAppend(photos, music, PhotosField);
    FilesForAppend(photos, music, MusicField);
  }

  lemma PhotoUploadsAreUnderPhotos(photoFiles: seq<File>, from: nat, suffixOf: nat -> string, extensionOf: File -> string)
    ensures forall u :: u in PhotoUploads(photoFiles, from, suffixOf, extensionOf) ==> u.field == PhotosField
  {
    var photos := PhotoUploads(photoFiles, from, suffixOf, extensionOf);
    forall u | u in photos ensures u.field == PhotosField {
      var k :| 0 <= k < |photos| && photos[k] == u;
    }
  }

  /** Any photo list the picker can produce, with at most one music file,
      gets past multer's limits: the client's seven-photo rule keeps the
      server's `maxCount` from ever refusing a form it built. */
  lemma SubmissionPassesUploadLimits(s: ValidForm, evs: seq<PhotoEvent>,
                                     suffixOf: nat -> string, extensionOf: File -> string)
    requires s.photos == Replay([], evs)
    ensures UploadsAccepted(Receive(BuildFormData(s), suffixOf, extensionOf).value.files)
  {
    ReceiveSubmission(s, suffixOf, extensionOf);
    SevenPhotoInvariant(evs);
  }

  /** A form that passes the schema, with photos chosen through the picker
      and names whose slug is not taken yet, becomes a stored invitation
      carrying the form's fields, one `/uploads/photos-...` path per photo in
      the order they were picked (at least one), and a music path exactly
      when a music file was chosen. */
  lemma SubmitCreatesInvitation(st: Store, v: FormValues, evs: seq<PhotoEvent>,
                                suffixOf: nat -> string, extensionOf: File -> string, slugify: Slugifier)
    requires Valid(st)
    requires Validate(v).Some?
    requires v.photos == Replay([], evs)
    requires !HasSlug(st.invitations, slugify(v.brideNames.value + "-" + v.groomNames.value))
    ensures var req := Receive(BuildFormData(Validate(v).value), suffixOf, extensionOf).value;
      var resp := Handle(st, req, slugify).1;
      && resp.InvitationJson?
      && resp.invitation.brideNames == v.brideNames.value
      && resp.invitation.groomNames == v.groomNames.value
      && resp.invitation.date == v.date.value
      && resp.invitation.venue == v.venue.value
      && resp.invitation.templateId == v.templateId.value
      && 1 <= |resp.invitation.photos| == |v.photos| <= PhotoUpload.MaxPhotos
      && (forall i :: 0 <= i < |v.photos| ==>
            resp.invitation.photos[i] == "/uploads/photos-" + suffixOf(i) + extensionOf(v.photos[i]))
      && (resp.invitation.musicUrl.Some? <==> v.musicFile.Some?)
      && (v.musicFile.Some? ==>
            resp.invitation.musicUrl.value == "/uploads/musicFile-" + suffixOf(|v.photos|) + extensionOf(v.musicFile.value))
  {
    var s := Validate(v).value;
    ReceiveSubmission(s, suffixOf, extensionOf);
    SubmissionPassesUploadLimits(s, evs, suffixOf, extensionOf);
    var req := Receive(BuildFormData(s), suffixOf, extensionOf).value;
    CreateFromSubmission(st, s, req, suffixOf, extensionOf, slugify);
  }

  /** `SubmitCreatesInvitation` once the request is known to carry the
      form's fields and its uploads grouped by field. */
  lemma CreateFromSubmission(st: Store, s: ValidForm, req: Request,
                             suffixOf: nat -> string, extensionOf: File -> string, slugify: Slugifier)
    requires Valid(st)
    requires req.CreateInvitation? && UploadsAccepted(req.files)
    requires req.fields == InvitationFields(s.brideNames, s.groomNames, s.date, s.venue, s.templateId)
    requires FilesFor(req.files, PhotosField) == PhotoUploads(s.photos, 0, suffixOf, extensionOf)
    requires FilesFor(req.files, MusicField) == MusicUploads(s.musicFile, |s.photos|, suffixOf, extensionOf)
    requires !HasSlug(st.invitations, slugify(s.brideNames + "-" + s.groomNames))
    ensures var resp := Handle(st, req, slugify).1;
      && resp.InvitationJson?
      && resp.invitation.brideNames == s.brideNames && resp.invitation.groomNames == s.groomNames
      && resp.invitation.date == s.date && resp.invitation.venue == s.venue
      && resp.invitation.templateId == s.templateId
      && |resp.invitation.photos| == |s.photos|
      && (forall i :: 0 <= i < |s.photos| ==>
            resp.invitation.photos[i] == "/uploads/photos-" + suffixOf(i) + extensionOf(s.photos[i]))
      && (resp.invitation.musicUrl.Some? <==> s.musicFile.Some?)
      && (s.musicFile.Some? ==>
            resp.invitation.musicUrl.value == "/uploads/musicFile-" + suffixOf(|s.photos|) + extensionOf(s.musicFile.value))
  {
    StoreProperties.CreateAddsOneRow(st, req.fields, req.files, slugify);
    var inv := Create(st, req.fields, req.files, slugify).1.invitation;
    assert |inv.photos| == |s.photos| && forall i :: 0 <= i < |s.photos| ==>
      inv.photos[i] == "/uploads/photos-" + suffixOf(i) + extensionOf(s.photos[i]) by {
      StoreProperties.CreatedPhotosFollowUploads(st, req.fields, req.files, slugify);
    }
    SubmittedMusicUrl(st, s, req, suffixOf, extensionOf, slugify);
  }

  /** The music part of `SubmitCreatesInvitation`. */
  lemma SubmittedMusicUrl(st: Store, s: ValidForm, req: Request,
                          suffixOf: nat -> string, extensionOf: File -> string, slugify: Slugifier)
    requires Valid(st)
    requires req.CreateInvitation?
    requires FilesFor(req.files, MusicField) == MusicUploads(s.musicFile, |s.photos|, suffixOf, extensionOf)
    requires UploadsAccepted(req.files)
    requires !HasSlug(st.invitations, SlugOf(req.fields, slugify))
    ensures Create(st, req.fields, req.files, slugify).1.InvitationJson?
    ensures var inv := Create(st, req.fields, req.files, slugify).1.invitation;
      && (inv.musicUrl.Some? <==> s.musicFile.Some?)
      && (s.musicFile.Some? ==>
            inv.musicUrl.value == "/uploads/musicFile-" + suffixOf(|s.photos|) + extensionOf(s.musicFile.value))
  {
    StoreProperties.CreatedMusicUrl(st, req.fields, req.files, slugify);
    var music := FilesFor(req.files, MusicField);
    if s.musicFile.Some? {
      assert music[0] in music;
    }
  }
}
